=== FILE: README.md ===
# slpk_merger: node renumbering and reference rewriting

`slpk_merger` merges two I3S scene-layer packages (`.slpk` archives) into one.
It unpacks both inputs. It copies every node folder of the first input into a
shared `merged_nodes` directory, renamed `0, 1, 2, ...` in sorted order of the
old names. It does the same for the second input from `10000` on. While
copying, it rewrites each folder's `3dNodeIndexDocument`: `id` becomes the new
folder name, and every `children` entry becomes `start + int(prefix)`, where
`prefix` is the entry's text before its first `-`. Finally it writes the first
input's `3dSceneLayer` descriptor with a fresh `id` and `resource.rootNode = "0"`,
and archives the result under a name ending in `.slpk`.

This project models that logic as pure functions over a directory listing, a
map from folder names to parsed index documents, and a JSON value type. It
proves what each step produces, including its error cases.

Modules, one per file:

- `Results`: `Option` and `Result`.
- `Errors`: one constructor per exception the modelled code can raise, plus
  `ChildrenIsObject` for the object-valued `children` the model does not iterate.
- `Json`: parsed JSON values.
- `Decimal`: ASCII `str.isdigit`, `int()` on digit text, and `str()` of an integer.
- `Lexicographic`: Python's `str` ordering and `sorted`.
- `NodeFolders`: `collect_node_folders`.
- `Remap`: `remap_folder_node_structure`. The destination directory is the set
  of folder names already in it. Copying onto a taken name raises, as
  `shutil.copytree` does.
- `SceneLayer`: `update_3dscene_layer_json`.
- `Merge`: `merge_slpks`, stripped of its I/O. The code discards the two
  folder maps; the model keeps them in its result so that their disjointness
  can be stated.
- `References`: how child references relate to the new folder names.

Four properties of the code matter for the renumbered folders and the descriptor written into the merged package:

- **Folder ids.** A copied folder's new name comes from its position in the
  sorted listing (`current_id`), not from the number in its old name. A
  `children` entry is renumbered from its own numeric prefix. `References`
  states exactly when the two schemes agree, and gives a listing where they do
  not.
- **Offset overflow.** Nothing checks that the first input fits below the
  second input's offset 10000. With more than 10000 node folders in the first
  input and any in the second, and the first input renumbered without error,
  `copytree` raises FileExistsError on the folder `10000`.
- **Missing index document.** A node folder without a `3dNodeIndexDocument`
  is copied unchanged.
- **Merged root.** Only `resource.rootNode` is set, to `"0"`. The second
  input's descriptor is never read.

## Model

| member | source | states |
|---|---|---|
| NodeFolders.Candidates | slpk_merger.py:23-24 | A name is kept exactly when some listing entry with that name is a directory whose name contains `-` or is a non-empty run of digits |
| NodeFolders.CollectNodeFolders | slpk_merger.py:21-25 | The result is sorted in Python string order, is a permutation of the kept names, and holds exactly the kept names |
| NodeFolders.CollectDistinct | slpk_merger.py:21-25 | A listing without repeated names yields node folders without repeats |
| NodeFolders.CollectIsTheSortedArrangement | slpk_merger.py:22 | Any sorted arrangement of the kept names is the collected list, so the renumbering order is fully determined by the listing's contents |
| Lexicographic.Sort | slpk_merger.py:22 | `sorted` returns an ascending permutation of its input |
| Lexicographic.SortedPermutationUnique | slpk_merger.py:22 | Two ascending permutations of the same strings are equal |
| Lexicographic.LexLeTotal | slpk_merger.py:22 | Any two strings are comparable in Python's string order |
| Lexicographic.LexLeTransitive | slpk_merger.py:22 | Python's string order is transitive |
| Lexicographic.LexLeAntisymmetric | slpk_merger.py:22 | Two strings each at most the other are equal |
| Lexicographic.TenBeforeTwo | slpk_merger.py:22 | The order is not numeric: "10" sorts before "2" |
| Decimal.NatToString | slpk_merger.py:34 | `str(n)` is a digit string without a leading zero that denotes n |
| Decimal.IntToString | slpk_merger.py:34 | `str(i)` starts with '-' exactly for negative i, followed by the canonical digits of the magnitude |
| Decimal.IntToStringInjective | slpk_merger.py:34 | Distinct integers never produce the same folder name |
| Decimal.ParseDecimal | slpk_merger.py:44 | `int()` on a prefix succeeds exactly for a non-empty run of ASCII digits, and printing the value of canonical digit text gives that text back |
| Decimal.ParseShowRoundTrip | slpk_merger.py:34 | Parsing the printed form of n gives n back |
| Decimal.ShowParseRoundTrip | slpk_merger.py:44 | Printing the value of canonical digit text gives the same text back |
| Decimal.LeadingZeroIgnored | slpk_merger.py:44 | `int()` ignores a leading zero |
| Remap.PrefixBeforeDash | slpk_merger.py:44 | `split('-')[0]` is a prefix of the child without '-', followed in the child by '-' when it is shorter |
| Remap.RewrittenChildIsTarget | slpk_merger.py:44 | A string child is rewritten without raising exactly when it has a target, and is rewritten to that target |
| Remap.RewriteItemsFrom | slpk_merger.py:44 | The comprehension succeeds exactly when every entry is a string with a parsable prefix; it keeps length and order, turns entry i into `str(start + prefix value)`, and otherwise raises on the first bad entry |
| Remap.RewriteChildren | slpk_merger.py:43-44 | Rewriting `children` succeeds exactly when it is iterable and every visited entry is rewritable; a string is visited character by character, and a non-iterable value raises |
| Remap.RewriteIndex | slpk_merger.py:41-45 | The rewrite succeeds exactly for an object whose `children`, if any, are rewritable; `id` becomes the new name, `children` is rewritten only when present, and every other key is unchanged |
| Remap.CopyFolder | slpk_merger.py:36-45 | Copying a folder fails exactly when its index document exists and cannot be rewritten; otherwise the copy carries the rewritten document, or none |
| Remap.FolderErrorCause | slpk_merger.py:34-36 | A folder fails with FileExistsError exactly when its new name is already taken in the destination |
| Remap.RemapFrom | slpk_merger.py:32-48 | The loop succeeds exactly when no folder's new name is taken and every index document is rewritable; folder k is copied to `str(start + k)`; otherwise it raises the first folder's error |
| Remap.FolderMapOf | slpk_merger.py:47 | `folder_map` has a key for every copied folder, and each value is the new name of some folder with that old name |
| Remap.FolderMapAt | slpk_merger.py:47 | With distinct old names, each old name maps to its own folder's new name |
| Remap.RemapFolderNodeStructure | slpk_merger.py:27-50 | Success exactly when no folder fails; then the copies are numbered consecutively from `start_id` in sorted order, avoid the names already present, carry rewritten index documents, and the map's keys are the node folders with pairwise distinct values; on failure, the error is that of the first failing folder |
| Remap.NoCollisionWhenFree | slpk_merger.py:34-36 | If the names `start_id .. start_id + n - 1` are free, the remap never raises FileExistsError |
| SceneLayer.UpdateSceneLayer | slpk_merger.py:55-58 | Succeeds exactly for an object whose `resource` is absent or an object; sets `id` to the uuid and `resource.rootNode` to "0", creates `resource` when absent, and keeps every other top-level and `resource` key |
| SceneLayer.UpdateIdempotent | slpk_merger.py:55-58 | Applying the update twice with the same uuid equals applying it once |
| SceneLayer.UpdateForgetsOldIdentity | slpk_merger.py:55 | The result does not depend on the old `id` |
| Merge.OutputPath | slpk_merger.py:89 | The archive name ends in `.slpk`; a name already ending so is unchanged, and any other gets the suffix appended |
| Merge.OutputPathIdempotent | slpk_merger.py:89 | Normalising the archive name twice equals normalising it once |
| Merge.MergeSlpks | slpk_merger.py:62-95 | The merge succeeds exactly when both renumberings succeed and the first input has an updatable descriptor. It then holds the first input's folders numbered from 0 and the second's from 10000, each with its index document rewritten, two folder maps with disjoint values, the first descriptor updated with the new id, and the `.slpk` path. A failure is the first renumbering's error, else the second's, else the descriptor's |
| Merge.MergeSecond | slpk_merger.py:74-79 | Once the first input is copied, the merge succeeds exactly when the second renumbering succeeds and the descriptor is updatable; a failure is the second renumbering's error, or, after it succeeded, the descriptor's |
| Merge.FinishMerge | slpk_merger.py:76-79 | After both renumberings, the merge fails exactly when the first input's descriptor is missing or not updatable, with the matching descriptor error; on success the merged folders are both runs concatenated with their rewritten index documents, and the descriptor is exactly the updated first descriptor, every other key kept |
| Merge.NamespacesDisjoint | slpk_merger.py:73-74 | With at most 10000 folders in the first input, no new name of the first input equals a new name of the second |
| Merge.FirstInputFits | slpk_merger.py:73 | An error of the first input's renumbering into the empty destination is never FileExistsError |
| Merge.SecondInputFits | slpk_merger.py:74 | With at most 10000 folders in the first input, an error of the second renumbering is never FileExistsError |
| Merge.NoCollisionWithinBound | slpk_merger.py:73-74 | With at most 10000 folders in the first input, the merge never fails with FileExistsError |
| Merge.SecondStageFits | slpk_merger.py:73-74 | With at most 10000 folders in the first input, an error raised after the first input was copied is never FileExistsError |
| Merge.DescriptorErrorIsNotCollision | slpk_merger.py:55-58 | Writing the descriptor never raises FileExistsError |
| Merge.CollisionPastBound | slpk_merger.py:73-74 | With more than 10000 folders in the first input, any in the second, and the first input's renumbering succeeding, the merge raises FileExistsError on "10000" |
| Merge.SecondCollides | slpk_merger.py:34-36 | When the first input took more than 10000 names and the second input has a node folder, the second renumbering raises FileExistsError on "10000" |
| References.FolderMapNumbering | slpk_merger.py:30-48 | For a listing without repeated names, `folder_map` sends the k-th node folder in sorted order to `str(start_id + k)` |
| References.IndexIdMatchesFolderMap | slpk_merger.py:40-47 | A copied folder has a rewritten index document exactly when it had one, and that document's `id` is the folder's `folder_map` value |
| References.WrittenChildResolves | slpk_merger.py:40-47 | Entry j of a copied folder's rewritten `children` array is the new name that the old entry j resolves to |
| References.CopiedChildResolves | slpk_merger.py:43-44 | In one copied folder, each rewritten `children` entry is the target of the old entry at the same position |
| References.ChildResolvesIff | slpk_merger.py:44 | A child is rewritten to the k-th new name exactly when its prefix's value is k |
| References.ChildFollowsFolderMap | slpk_merger.py:44-47 | A child is rewritten to old folder k's new name exactly when its prefix's value is k, the folder's sorted position |
| References.ChildLeadingZeroDropped | slpk_merger.py:44 | A child with a leading "0" resolves like the child without it |
| References.ReferencesKeptWhenInOrder | slpk_merger.py:30-48 | When the old folder names already count 0, 1, 2, ... in sorted order, a child naming a folder's number is rewritten to that folder's new name |
| References.MisdirectedChild | slpk_merger.py:22-44 | For folders "0", "1", "2", "10", old "10" becomes "2" and old "2" becomes "3", while a child "2" is rewritten to "2" and so points at the old "10" |

## Left out

- Zip extraction and archive creation, gzip and JSON reading and writing, `copytree` of folder contents other than the index document, `os.remove` and `os.replace` (slpk_merger.py:9-19, 36, 45, 59-60, 90-95): file-system and codec I/O. An index document is given already parsed, and a malformed gzip or JSON file is not modelled.
- The final copy of the merged node folders into the package root (slpk_merger.py:81-86): a plain file-system copy with `dirs_exist_ok=True`, which cannot fail on names.
- The scratch directory layout and what else the archive holds (slpk_merger.py:63-68, 94): the archive zips the whole working directory, so besides the renumbered folders and `3dSceneLayer.json` it also carries both extracted inputs unchanged under `slpk1/` and `slpk2/` (original folders, old-id index documents, the first input's `3dSceneLayer.json.gz`) and a second copy of every renumbered folder under `merged_nodes/`. The model's `Merged` describes only the renumbered folders, the updated descriptor and the archive name.
- `os.listdir` and `os.path.isdir`: the listing is an input sequence of (name, is-directory) pairs.
- A stale `merged_nodes` directory left by an earlier run: `MergeSlpks` starts from an empty destination; `RemapFolderNodeStructure` takes the taken names as a parameter, so a pre-filled destination can be stated with it.
- `uuid.uuid4()` (slpk_merger.py:55): the identifier is a string parameter.
- `tqdm` progress reporting (slpk_merger.py:32).
- NodeFolders.Candidates: `str.isdigit` is modelled on ASCII digits only, so a directory named with other Unicode digits (such as "²" or "١") is kept by Python but not by the model.
- Decimal.ParseDecimal: accepts ASCII digits only; Python's `int()` also accepts surrounding whitespace, a sign, underscores and non-ASCII digits, and `str.isdigit` accepts non-ASCII digits.
- Remap.RewriteChildren: a `children` value that is a JSON object yields ChildrenIsObject; Python would iterate its keys in insertion order, which a `map` does not keep.
- JSON numbers are integers only and object key order is not kept; neither affects the modelled rewrites.
- The command-line wrapper and the packaging metadata: argument plumbing only.

=== FILE: decimal.dfy ===
/**
 * ASCII decimal text: Python's `str.isdigit`, `int()` on a run of digits and
 * `str()` of an integer, restricted to the characters '0'..'9'.
 */
module Decimal {
  import opened Results

  predicate IsDigit(c: char) {
    '0' <= c <= '9'
  }

  predicate AllDigits(s: string) {
    forall i :: 0 <= i < |s| ==> IsDigit(s[i])
  }

  /** `s.isdigit()`: true only for a non-empty string of digits. */
  predicate IsDigitString(s: string) {
    |s| > 0 && AllDigits(s)
  }

  /** The canonical spelling `str()` produces: no leading zero except "0" itself. */
  predicate NoLeadingZero(s: string) {
    |s| > 0 && (s[0] == '0' ==> s == "0")
  }

  function DigitValue(c: char): (d: nat)
    requires IsDigit(c)
    ensures d < 10
  {
    c as int - '0' as int
  }

  function DigitChar(d: nat): (c: char)
    requires d < 10
    ensures IsDigit(c) && DigitValue(c) == d
  {
    ('0' as int + d) as char
  }

  /** The number a run of digits denotes, most significant digit first. */
  function DigitsValue(s: string): nat
    requires AllDigits(s)
  {
    if |s| == 0 then 0 else 10 * DigitsValue(s[..|s| - 1]) + DigitValue(s[|s| - 1])
  }

  /** `int(s)` for ASCII digit text: None where Python raises ValueError. */
  function ParseDecimal(s: string): (r: Option<nat>)
    ensures r.Some? <==> IsDigitString(s)
    ensures r.Some? && NoLeadingZero(s) ==> NatToString(r.value) == s
  {
    if IsDigitString(s) then
      var n := DigitsValue(s);
      assert NoLeadingZero(s) ==> NatToString(n) == s by {
        if NoLeadingZero(s) {
          ShowParseRoundTrip(s);
        }
      }
      Some(n)
    else None
  }

  /** `str(n)` for a natural number. */
  function NatToString(n: nat): (r: string)
    ensures IsDigitString(r)
    ensures NoLeadingZero(r)
    ensures DigitsValue(r) == n
    decreases n
  {
    if n < 10 then [DigitChar(n)]
    else
      var p := NatToString(n / 10);
      var r := p + [DigitChar(n % 10)];
      assert r[..|r| - 1] == p;
      r
  }

  /** `str(i)` for any integer: a '-' sign before the digits of a negative number. */
  function IntToString(i: int): (r: string)
    ensures |r| > 0
    ensures r[0] == '-' <==> i < 0
    ensures i >= 0 ==> IsDigitString(r) && NoLeadingZero(r) && DigitsValue(r) == i
    ensures i < 0 ==> IsDigitString(r[1..]) && NoLeadingZero(r[1..]) && DigitsValue(r[1..]) == -i
  {
    if i < 0 then
      var r := "-" + NatToString(-i);
      assert r[1..] == NatToString(-i);
      r
    else NatToString(i)
  }

  /** Parsing the decimal text of n gives n back. */
  lemma ParseShowRoundTrip(n: nat)
    ensures ParseDecimal(NatToString(n)) == Some(n)
  {
  }

  /** A digit string whose first digit is not '0' denotes a positive number. */
  lemma {:induction false} LeadingNonZeroPositive(s: string)
    requires IsDigitString(s) && s[0] != '0'
    ensures DigitsValue(s) > 0
    decreases |s|
  {
    if |s| > 1 {
      LeadingNonZeroPositive(s[..|s| - 1]);
    }
  }

  /** Printing the value of canonical digit text gives the same text back. */
  lemma {:induction false} ShowParseRoundTrip(s: string)
    requires IsDigitString(s) && NoLeadingZero(s)
    ensures NatToString(DigitsValue(s)) == s
    decreases |s|
  {
    if |s| > 1 {
      var p := s[..|s| - 1];
      assert s[0] != '0';
      LeadingNonZeroPositive(p);
      ShowParseRoundTrip(p);
      var n := DigitsValue(s);
      assert n / 10 == DigitsValue(p) && n % 10 == DigitValue(s[|s| - 1]);
      assert s == p + [s[|s| - 1]];
    }
  }

  /** `str` is injective on integers: distinct numbers never share a folder name. */
  lemma IntToStringInjective(a: int, b: int)
    ensures IntToString(a) == IntToString(b) <==> a == b
  {
    if IntToString(a) == IntToString(b) {
      if a < 0 {
        assert IntToString(a)[1..] == IntToString(b)[1..];
      }
    }
  }

  /** `int()` ignores a leading zero: "007" and "7" denote the same number. */
  lemma {:induction false} LeadingZeroIgnored(s: string)
    requires AllDigits(s)
    ensures AllDigits("0" + s) && DigitsValue("0" + s) == DigitsValue(s)
    decreases |s|
  {
    var t := "0" + s;
    if |s| > 0 {
      assert t[..|t| - 1] == "0" + s[..|s| - 1];
      LeadingZeroIgnored(s[..|s| - 1]);
    }
  }
}

=== FILE: errors.dfy ===
/** The exceptions the modelled part of the merge can raise, one constructor per cause. */
module Errors {

  datatype MergeError =
      /** The node index document is valid JSON but not an object, so `index_data['id'] = ...` raises TypeError. */
    | IndexNotAnObject(folder: string)
      /** `children` is null, a boolean or a number: iterating it raises TypeError. */
    | ChildrenNotIterable
      /** `children` is an object; iterating its keys in insertion order is not modelled. */
    | ChildrenIsObject
      /** The child at this position is not a string, so `child.split` raises AttributeError. */
    | ChildNotAString(position: nat)
      /** `int()` of the text before the first '-' of this child raises ValueError. */
    | BadChildReference(child: string)
      /** `shutil.copytree` onto an existing destination folder raises FileExistsError. */
    | FolderExists(name: string)
      /** The first input has no `3dSceneLayer.json.gz`, so opening it raises FileNotFoundError. */
    | SceneLayerMissing
      /** The scene-layer descriptor is not a JSON object, so assigning its `id` raises TypeError. */
    | SceneLayerNotAnObject
      /** The descriptor's `resource` exists but is not an object, so assigning `rootNode` raises TypeError. */
    | ResourceNotAnObject
}

=== FILE: json.dfy ===
/** The JSON values that `json.load` returns, as an immutable tree. */
module Json {

  /**
   * A decoded JSON document. Numbers are integers only; an object is a map from
   * key to value, so the insertion order Python's dict keeps is not represented.
   */
  datatype Json =
    | JNull
    | JBool(b: bool)
    | JNum(n: int)
    | JStr(s: string)
    | JArr(items: seq<Json>)
    | JObj(fields: map<string, Json>)
}

=== FILE: lexicographic.dfy ===
/**
 * Python's ordering of `str` values (compare code point by code point; a proper
 * prefix comes first) and `sorted` on a list of strings.
 */
module Lexicographic {

  /** `a <= b` on Python strings. */
  predicate LexLe(a: string, b: string)
    decreases |a|
  {
    |a| == 0 || (|b| > 0 && (a[0] < b[0] || (a[0] == b[0] && LexLe(a[1..], b[1..]))))
  }

  lemma {:induction false} LexLeReflexive(a: string)
    ensures LexLe(a, a)
    decreases |a|
  {
    if |a| > 0 {
      LexLeReflexive(a[1..]);
    }
  }

  lemma {:induction false} LexLeAntisymmetric(a: string, b: string)
    requires LexLe(a, b) && LexLe(b, a)
    ensures a == b
    decreases |a|
  {
    if |a| > 0 {
      LexLeAntisymmetric(a[1..], b[1..]);
      assert a == [a[0]] + a[1..] && b == [b[0]] + b[1..];
    }
  }

  lemma {:induction false} LexLeTransitive(a: string, b: string, c: string)
    requires LexLe(a, b) && LexLe(b, c)
    ensures LexLe(a, c)
    decreases |a|
  {
    if |a| > 0 && a[0] == b[0] && b[0] == c[0] {
      LexLeTransitive(a[1..], b[1..], c[1..]);
    }
  }

  lemma {:induction false} LexLeTotal(a: string, b: string)
    ensures LexLe(a, b) || LexLe(b, a)
    decreases |a|
  {
    if |a| > 0 && |b| > 0 && a[0] == b[0] {
      LexLeTotal(a[1..], b[1..]);
    }
  }

  /** Every pair of positions is in order. */
  ghost predicate Sorted(s: seq<string>) {
    forall i, j :: 0 <= i < j < |s| ==> LexLe(s[i], s[j])
  }

  /** No string occurs twice. */
  ghost predicate Distinct(s: seq<string>) {
    forall i, j :: 0 <= i < j < |s| ==> s[i] != s[j]
  }

  /** Every element of t is at least x. */
  ghost predicate AllAtLeast(x: string, t: seq<string>) {
    forall j :: 0 <= j < |t| ==> LexLe(x, t[j])
  }

  lemma SortedCons(x: string, s: seq<string>)
    requires Sorted(s) && AllAtLeast(x, s)
    ensures Sorted([x] + s)
  {
    var r := [x] + s;
    forall i, j | 0 <= i < j < |r|
      ensures LexLe(r[i], r[j])
    {
      if i > 0 {
        assert r[i] == s[i - 1] && r[j] == s[j - 1];
      }
    }
  }

  lemma SortedHeadBound(x: string, s: seq<string>)
    requires Sorted(s) && |s| > 0 && LexLe(x, s[0])
    ensures AllAtLeast(x, s)
  {
    forall j | 0 <= j < |s|
      ensures LexLe(x, s[j])
    {
      if j > 0 {
        LexLeTransitive(x, s[0], s[j]);
      }
    }
  }

  lemma InsertTailBound(x: string, s: seq<string>, t: seq<string>)
    requires Sorted(s) && |s| > 0 && LexLe(s[0], x)
    requires multiset(t) == multiset(s[1..]) + multiset{x}
    ensures AllAtLeast(s[0], t)
  {
    forall j | 0 <= j < |t|
      ensures LexLe(s[0], t[j])
    {
      assert t[j] in multiset(t);
      if t[j] != x {
        assert t[j] in multiset(s[1..]);
        var k :| 0 <= k < |s[1..]| && s[1..][k] == t[j];
        assert s[k + 1] == t[j];
      }
    }
  }

  /** Insert x into a sorted list, keeping it sorted. */
  function Insert(x: string, s: seq<string>): (r: seq<string>)
    requires Sorted(s)
    ensures Sorted(r)
    ensures multiset(r) == multiset(s) + multiset{x}
  {
    if |s| == 0 then [x]
    else if LexLe(x, s[0]) then
      SortedHeadBound(x, s);
      SortedCons(x, s);
      [x] + s
    else
      LexLeTotal(x, s[0]);
      var t := Insert(x, s[1..]);
      InsertTailBound(x, s, t);
      SortedCons(s[0], t);
      assert s == [s[0]] + s[1..];
      [s[0]] + t
  }

  /** `sorted(s)`: the elements of s in ascending order. */
  function Sort(s: seq<string>): (r: seq<string>)
    ensures Sorted(r)
    ensures multiset(r) == multiset(s)
  {
    if |s| == 0 then []
    else
      assert s == [s[0]] + s[1..];
      Insert(s[0], Sort(s[1..]))
  }

  lemma {:induction false} DistinctCounts(s: seq<string>, x: string)
    requires Distinct(s)
    ensures multiset(s)[x] <= 1
    decreases |s|
  {
    if |s| > 0 {
      assert s == [s[0]] + s[1..];
      assert Distinct(s[1..]) by {
        forall i, j | 0 <= i < j < |s[1..]|
          ensures s[1..][i] != s[1..][j]
        {
          assert s[1..][i] == s[i + 1] && s[1..][j] == s[j + 1];
        }
      }
      DistinctCounts(s[1..], x);
      if s[0] == x {
        assert x !in s[1..];
        assert multiset(s[1..])[x] == 0;
      }
    }
  }

  /** A permutation of a list without repeats has no repeats either. */
  lemma DistinctPermutation(a: seq<string>, b: seq<string>)
    requires Distinct(a) && multiset(a) == multiset(b)
    ensures Distinct(b)
  {
    forall i, j | 0 <= i < j < |b|
      ensures b[i] != b[j]
    {
      if b[i] == b[j] {
        var x := b[i];
        assert b == b[..j] + [b[j]] + b[j + 1..];
        assert x in b[..j];
        assert multiset(b[..j])[x] >= 1;
        assert multiset(b)[x] >= 2;
        DistinctCounts(a, x);
        assert false;
      }
    }
  }

  /** The head of a sorted list is at most each of its elements. */
  lemma HeadIsLeast(a: seq<string>, x: string)
    requires Sorted(a) && x in multiset(a)
    ensures LexLe(a[0], x)
  {
    var k :| 0 <= k < |a| && a[k] == x;
    if k == 0 {
      LexLeReflexive(x);
    }
  }

  lemma TailPermutation(a: seq<string>, b: seq<string>)
    requires |a| > 0 && |b| > 0 && a[0] == b[0] && multiset(a) == multiset(b)
    ensures multiset(a[1..]) == multiset(b[1..])
  {
    assert a == [a[0]] + a[1..] && b == [b[0]] + b[1..];
    assert multiset(a) == multiset{a[0]} + multiset(a[1..]);
    assert multiset(b) == multiset{b[0]} + multiset(b[1..]);
    assert multiset(a[1..]) == multiset(a) - multiset{a[0]};
    assert multiset(b[1..]) == multiset(b) - multiset{b[0]};
  }

  /** Two sorted permutations of the same list are equal: `sorted` has exactly one possible answer. */
  lemma {:induction false} SortedPermutationUnique(a: seq<string>, b: seq<string>)
    requires Sorted(a) && Sorted(b) && multiset(a) == multiset(b)
    ensures a == b
    decreases |a|
  {
    assert |a| == |multiset(a)| == |multiset(b)| == |b|;
    if |a| > 0 {
      assert a[0] in multiset(a) && b[0] in multiset(b);
      HeadIsLeast(a, b[0]);
      HeadIsLeast(b, a[0]);
      LexLeAntisymmetric(a[0], b[0]);
      TailPermutation(a, b);
      SortedPermutationUnique(a[1..], b[1..]);
      assert a == [a[0]] + a[1..] && b == [b[0]] + b[1..];
    }
  }

  /** Python's order is not numeric: "10" sorts before "2". */
  lemma TenBeforeTwo()
    ensures LexLe("10", "2") && !LexLe("2", "10")
  {
  }
}

=== FILE: merge.dfy ===
/**
 * `merge_slpks`, stripped of extraction, copying and archiving: renumber the
 * first input's node folders from 0 and the second's from 10000 into one
 * destination directory, update the first input's scene-layer descriptor, and
 * choose the archive name.
 */
module Merge {
  import opened Results
  import opened Errors
  import opened Decimal
  import opened Json
  import opened NodeFolders
  import opened Remap
  import opened SceneLayer

  /** The first new folder name of each input. */
  const FirstStartId: int := 0
  const SecondStartId: int := 10000

  const ArchiveSuffix: string := ".slpk"

  predicate EndsWith(s: string, suffix: string) {
    |suffix| <= |s| && s[|s| - |suffix|..] == suffix
  }

  /** The final archive path: the requested output, with ".slpk" appended unless it already ends so. */
  function OutputPath(output: string): (r: string)
    ensures EndsWith(r, ArchiveSuffix)
    ensures EndsWith(output, ArchiveSuffix) ==> r == output
    ensures !EndsWith(output, ArchiveSuffix) ==> |r| == |output| + |ArchiveSuffix| && r[..|output|] == output
  {
    if EndsWith(output, ArchiveSuffix) then output else output + ArchiveSuffix
  }

  /** Normalising the archive path twice is the same as once. */
  lemma OutputPathIdempotent(output: string)
    ensures OutputPath(OutputPath(output)) == OutputPath(output)
  {
  }

  /** One extracted input package: its top-level listing, its node index documents, and its `3dSceneLayer.json.gz` if present. */
  datatype Package = Package(listing: seq<Entry>, indexDocs: IndexDocs, sceneLayer: Option<Json>)

  /** The renumbered folders, the updated descriptor and the archive name of a merge. */
  datatype Merged = Merged(
    nodeFolders: seq<Folder>,
    firstMap: map<string, string>,
    secondMap: map<string, string>,
    sceneLayer: Json,
    archivePath: string)

  /** The new names of a run of copied folders. */
  function Names(fs: seq<Folder>): (r: set<string>)
    ensures forall i :: 0 <= i < |fs| ==> fs[i].name in r
    ensures forall n :: n in r ==> exists i :: 0 <= i < |fs| && fs[i].name == n
  {
    set f | f in fs :: f.name
  }

  /** The first input's descriptor is present and the update completes on it. */
  predicate DescriptorOk(doc: Option<Json>) {
    doc.Some? && Updatable(doc.value)
  }

  /** `e` is what writing the merged descriptor raises for the first input's descriptor `doc`. */
  predicate DescriptorError(doc: Option<Json>, e: MergeError) {
    match doc
    case None => e == SceneLayerMissing
    case Some(d) => !Updatable(d) && e == (if d.JObj? then ResourceNotAnObject else SceneLayerNotAnObject)
  }

  /**
   * What a successful merge produces: the first input's folders renumbered
   * from 0, then the second's from 10000, each with its index document
   * rewritten; the two folder maps with disjoint values; the first input's
   * descriptor updated with the fresh identifier; and the archive path.
   */
  ghost predicate MergedWell(m: Merged, first: Package, second: Package, output: string, uuid: string) {
    var n1 := |CollectNodeFolders(first.listing)|;
    && m.archivePath == OutputPath(output)
    && DescriptorOk(first.sceneLayer)
    && m.sceneLayer == UpdateSceneLayer(first.sceneLayer.value, uuid).value
    && n1 <= |m.nodeFolders|
    && Renumbered(Remapped(m.nodeFolders[..n1], m.firstMap), first.listing, first.indexDocs, FirstStartId)
    && Renumbered(Remapped(m.nodeFolders[n1..], m.secondMap), second.listing, second.indexDocs, SecondStartId)
    && m.firstMap.Values !! m.secondMap.Values
  }

  /** The second input's renumbering into the destination holding the first's folders `a` succeeds. */
  ghost predicate SecondRemapOk(second: Package, a: Remapped) {
    RemapFolderNodeStructure(second.listing, second.indexDocs, SecondStartId, Names(a.folders)).Ok?
  }

  /** Both renumberings succeed. */
  ghost predicate RemapsOk(first: Package, second: Package) {
    var r1 := RemapFolderNodeStructure(first.listing, first.indexDocs, FirstStartId, {});
    r1.Ok? && SecondRemapOk(second, r1.value)
  }

  /**
   * The merge with the archive's I/O stripped: the first input renumbered into
   * an empty destination, the second into the destination holding the first's
   * folders, then the scene-layer descriptor and the archive name.
   */
  function MergeSlpks(first: Package, second: Package, output: string, uuid: string): (r: Result<Merged, MergeError>)
    ensures r.Ok? <==> RemapsOk(first, second) && DescriptorOk(first.sceneLayer)
    ensures r.Ok? ==> MergedWell(r.value, first, second, output, uuid)
    ensures r.Err? ==>
              || FirstRemapError(first, r.error)
              || SecondStageError(first, second, r.error)
              || (RemapsOk(first, second) && DescriptorError(first.sceneLayer, r.error))
  {
    match RemapFolderNodeStructure(first.listing, first.indexDocs, FirstStartId, {})
    case Err(e) => Err(e)
    case Ok(a) =>
      RemapRenumbered(first.listing, first.indexDocs, FirstStartId, {});
      MergeSecond(first, second, a, output, uuid)
  }

  /** The merge once the first input's folders are in the destination. */
  function MergeSecond(first: Package, second: Package, a: Remapped, output: string, uuid: string)
    : (r: Result<Merged, MergeError>)
    requires Renumbered(a, first.listing, first.indexDocs, FirstStartId)
    ensures r.Ok? <==> SecondRemapOk(second, a) && DescriptorOk(first.sceneLayer)
    ensures r.Ok? ==> MergedWell(r.value, first, second, output, uuid)
    ensures r.Err? ==>
              || SecondRemapError(first, second, a, r.error)
              || (SecondRemapOk(second, a) && DescriptorError(first.sceneLayer, r.error))
  {
    match RemapFolderNodeStructure(second.listing, second.indexDocs, SecondStartId, Names(a.folders))
    case Err(e) => Err(e)
    case Ok(b) =>
      RemapRenumbered(second.listing, second.indexDocs, SecondStartId, Names(a.folders));
      FinishMerge(first, second, a, b, output, uuid)
  }

  /** `e` is the error the first input's renumbering raised. */
  ghost predicate FirstRemapError(first: Package, e: MergeError) {
    var r1 := RemapFolderNodeStructure(first.listing, first.indexDocs, FirstStartId, {});
    r1.Err? && r1.error == e
  }

  /** The first input's renumbering succeeded and the second's raised `e`. */
  ghost predicate SecondStageError(first: Package, second: Package, e: MergeError) {
    var r1 := RemapFolderNodeStructure(first.listing, first.indexDocs, FirstStartId, {});
    r1.Ok? && SecondRemapError(first, second, r1.value, e)
  }

  /** `e` is the error the second input's renumbering raised. */
  ghost predicate SecondRemapError(first: Package, second: Package, a: Remapped, e: MergeError) {
    var r2 := RemapFolderNodeStructure(second.listing, second.indexDocs, SecondStartId, Names(a.folders));
    r2.Err? && r2.error == e
  }

  /** The merge once both inputs' folders are in the destination: the descriptor and the archive name. */
  function FinishMerge(first: Package, second: Package, a: Remapped, b: Remapped, output: string, uuid: string)
    : (r: Result<Merged, MergeError>)
    requires Renumbered(a, first.listing, first.indexDocs, FirstStartId)
    requires Renumbered(b, second.listing, second.indexDocs, SecondStartId)
    requires forall i :: 0 <= i < |b.folders| ==> b.folders[i].name !in Names(a.folders)
    ensures r.Ok? <==> DescriptorOk(first.sceneLayer)
    ensures r.Ok? ==> MergedWell(r.value, first, second, output, uuid)
    ensures r.Err? ==> DescriptorError(first.sceneLayer, r.error)
  {
    match first.sceneLayer
    case None => Err(SceneLayerMissing)
    case Some(doc) =>
      match UpdateSceneLayer(doc, uuid)
      case Err(e) => Err(e)
      case Ok(scene) =>
        MapValuesDisjoint(a, b);
        var fs := a.folders + b.folders;
        assert fs[..|a.folders|] == a.folders && fs[|a.folders|..] == b.folders;
        Ok(Merged(fs, a.folderMap, b.folderMap, scene, OutputPath(output)))
  }

  /** The second map's values are names of folders that were free after the first input was copied. */
  lemma MapValuesDisjoint(a: Remapped, b: Remapped)
    requires forall i :: 0 <= i < |b.folders| ==> b.folders[i].name !in Names(a.folders)
    requires MapsOldToNew(a) && MapsOldToNew(b)
    ensures a.folderMap.Values !! b.folderMap.Values
  {
  }

  /** With the fixed offsets, the two numberings cannot meet while the first input has at most 10000 node folders. */
  lemma NamespacesDisjoint(n1: nat, i: nat, j: nat)
    requires n1 <= SecondStartId - FirstStartId && i < n1
    ensures IntToString(FirstStartId + i) != IntToString(SecondStartId + j)
  {
    IntToStringInjective(FirstStartId + i, SecondStartId + j);
  }

  /** The second input's first folder is named "10000". */
  lemma SecondFirstName()
    ensures IntToString(SecondStartId) == "10000"
  {
    assert DigitsValue("1") == 1;
    assert "10"[..1] == "1";
    assert DigitsValue("10") == 10;
    assert "100"[..2] == "10";
    assert DigitsValue("100") == 100;
    assert "1000"[..3] == "100";
    assert DigitsValue("1000") == 1000;
    assert "10000"[..4] == "1000";
    assert DigitsValue("10000") == 10000;
    ShowParseRoundTrip("10000");
  }

  /**
   * The copy never collides while the first input has at most 10000 node
   * folders: any failure is then an index-document or descriptor error.
   */
  lemma NoCollisionWithinBound(first: Package, second: Package, output: string, uuid: string)
    requires |CollectNodeFolders(first.listing)| <= SecondStartId - FirstStartId
    ensures MergeSlpks(first, second, output, uuid).Err? ==> !MergeSlpks(first, second, output, uuid).error.FolderExists?
  {
    var r := MergeSlpks(first, second, output, uuid);
    if r.Err? {
      var e := r.error;
      if FirstRemapError(first, e) {
        FirstInputFits(first, e);
      } else if SecondStageError(first, second, e) {
        SecondStageFits(first, second, e);
      } else {
        DescriptorErrorIsNotCollision(first.sceneLayer, e);
      }
    }
  }

  /** Writing the descriptor never raises FileExistsError. */
  lemma DescriptorErrorIsNotCollision(doc: Option<Json>, e: MergeError)
    requires DescriptorError(doc, e)
    ensures !e.FolderExists?
  {
  }

  /** The first input is copied into an empty destination, so it cannot collide. */
  lemma FirstInputFits(first: Package, e: MergeError)
    ensures FirstRemapError(first, e) ==> !e.FolderExists?
  {
    NoCollisionWhenFree(first.listing, first.indexDocs, FirstStartId, {});
  }

  /** Within the bound, the second stage cannot collide either. */
  lemma SecondStageFits(first: Package, second: Package, e: MergeError)
    requires |CollectNodeFolders(first.listing)| <= SecondStartId - FirstStartId
    ensures SecondStageError(first, second, e) ==> !e.FolderExists?
  {
    var r1 := RemapFolderNodeStructure(first.listing, first.indexDocs, FirstStartId, {});
    if r1.Ok? {
      SecondInputFits(first, second, r1.value, e);
    }
  }

  /** Names taken by a first input of at most 10000 folders are all below the second input's range. */
  lemma FirstNamesBelow(fs: seq<Folder>, sources: seq<string>)
    requires NumberedFrom(fs, sources, FirstStartId) && |fs| <= SecondStartId - FirstStartId
    ensures forall j :: SecondStartId <= j ==> IntToString(j) !in Names(fs)
  {
    forall j | SecondStartId <= j
      ensures IntToString(j) !in Names(fs)
    {
    }
  }

  /** The second input's new names avoid every name the first input's folders took. */
  lemma SecondInputFits(first: Package, second: Package, a: Remapped, e: MergeError)
    requires NumberedFrom(a.folders, CollectNodeFolders(first.listing), FirstStartId) && MapsOldToNew(a)
    requires |CollectNodeFolders(first.listing)| <= SecondStartId - FirstStartId
    ensures SecondRemapError(first, second, a, e) ==> !e.FolderExists?
  {
    FirstNamesBelow(a.folders, CollectNodeFolders(first.listing));
    NoCollisionWhenFree(second.listing, second.indexDocs, SecondStartId, Names(a.folders));
  }

  /**
   * Past the bound the fixed offset does not wrap silently: when the first
   * input has more than 10000 node folders and the second has any, the merge
   * raises FileExistsError on the second input's first folder, "10000".
   */
  lemma CollisionPastBound(first: Package, second: Package, output: string, uuid: string)
    requires RemapFolderNodeStructure(first.listing, first.indexDocs, FirstStartId, {}).Ok?
    requires |CollectNodeFolders(first.listing)| > SecondStartId - FirstStartId
    requires |CollectNodeFolders(second.listing)| > 0
    ensures MergeSlpks(first, second, output, uuid) == Err(FolderExists("10000"))
  {
    var a := RemapFolderNodeStructure(first.listing, first.indexDocs, FirstStartId, {}).value;
    SecondCollides(first, second, a);
    var r := MergeSlpks(first, second, output, uuid);
    assert !SecondRemapOk(second, a);
    assert !FirstRemapError(first, r.error);
  }

  /** The second input's first folder, "10000", is already taken by the first input's folder 10000. */
  lemma SecondCollides(first: Package, second: Package, a: Remapped)
    requires NumberedFrom(a.folders, CollectNodeFolders(first.listing), FirstStartId)
    requires |CollectNodeFolders(first.listing)| > SecondStartId - FirstStartId
    requires |CollectNodeFolders(second.listing)| > 0
    ensures SecondRemapError(first, second, a, FolderExists("10000"))
  {
    var c2 := CollectNodeFolders(second.listing);
    var taken := Names(a.folders);
    assert a.folders[SecondStartId].name == IntToString(FirstStartId + SecondStartId);
    assert FolderFails(c2, second.indexDocs, SecondStartId, taken, 0);
    var r2 := RemapFolderNodeStructure(second.listing, second.indexDocs, SecondStartId, taken);
    var i :| 0 <= i < |c2| && FolderFails(c2, second.indexDocs, SecondStartId, taken, i)
      && (forall j :: 0 <= j < i ==> !FolderFails(c2, second.indexDocs, SecondStartId, taken, j))
      && r2.error == FolderError(c2, second.indexDocs, SecondStartId, taken, i);
    assert i == 0;
    SecondFirstName();
  }
}

=== FILE: node_folders.dfy ===
/**
 * `collect_node_folders`: which entries of an extracted package's top-level
 * directory are node folders, and in which order they are renumbered.
 */
module NodeFolders {
  import opened Decimal
  import opened Lexicographic

  /** One name returned by `os.listdir`, with what `os.path.isdir` says of it. */
  datatype Entry = Entry(name: string, isDir: bool)

  /** The name test: the name contains '-' or is a non-empty run of digits. */
  predicate IsNodeFolderName(name: string) {
    '-' in name || IsDigitString(name)
  }

  /** A directory entry that is a node folder. */
  predicate Selected(e: Entry) {
    e.isDir && IsNodeFolderName(e.name)
  }

  /** `os.listdir` never reports a name twice. */
  ghost predicate DistinctNames(listing: seq<Entry>) {
    forall i, j :: 0 <= i < j < |listing| ==> listing[i].name != listing[j].name
  }

  /** Some entry of the listing with this name is a node folder. */
  ghost predicate Listed(listing: seq<Entry>, n: string) {
    exists i :: 0 <= i < |listing| && Selected(listing[i]) && listing[i].name == n
  }

  /** The names of the node folders, in listing order. */
  function Candidates(listing: seq<Entry>): (r: seq<string>)
    ensures |r| <= |listing|
    ensures forall n :: n in r <==> Listed(listing, n)
  {
    if |listing| == 0 then []
    else
      var rest := Candidates(listing[1..]);
      assert forall n :: Listed(listing[1..], n) ==> Listed(listing, n) by {
        forall n | Listed(listing[1..], n)
          ensures Listed(listing, n)
        {
          var i :| 0 <= i < |listing[1..]| && Selected(listing[1..][i]) && listing[1..][i].name == n;
          assert listing[i + 1] == listing[1..][i];
        }
      }
      assert forall n :: Listed(listing, n) ==> (n == listing[0].name && Selected(listing[0])) || Listed(listing[1..], n) by {
        forall n | Listed(listing, n)
          ensures (n == listing[0].name && Selected(listing[0])) || Listed(listing[1..], n)
        {
          var i :| 0 <= i < |listing| && Selected(listing[i]) && listing[i].name == n;
          if i > 0 {
            assert listing[1..][i - 1] == listing[i];
          }
        }
      }
      if Selected(listing[0]) then [listing[0].name] + rest else rest
  }

  /** Distinct listing names give distinct candidates. */
  lemma {:induction false} CandidatesDistinct(listing: seq<Entry>)
    requires DistinctNames(listing)
    ensures Distinct(Candidates(listing))
    decreases |listing|
  {
    if |listing| > 0 {
      var tail := listing[1..];
      assert DistinctNames(tail) by {
        forall i, j | 0 <= i < j < |tail|
          ensures tail[i].name != tail[j].name
        {
          assert tail[i] == listing[i + 1] && tail[j] == listing[j + 1];
        }
      }
      CandidatesDistinct(tail);
      var rest := Candidates(tail);
      if Selected(listing[0]) {
        assert listing[0].name !in rest;
        var r := [listing[0].name] + rest;
        forall i, j | 0 <= i < j < |r|
          ensures r[i] != r[j]
        {
          if i == 0 {
            assert r[j] == rest[j - 1];
          } else {
            assert r[i] == rest[i - 1] && r[j] == rest[j - 1];
          }
        }
      }
    }
  }

  /** `collect_node_folders(base_dir)`: the node folders, sorted ascending by Python's string order. */
  function CollectNodeFolders(listing: seq<Entry>): (r: seq<string>)
    ensures Sorted(r)
    ensures |r| <= |listing|
    ensures forall n :: n in r <==> Listed(listing, n)
    ensures multiset(r) == multiset(Candidates(listing))
  {
    var c := Candidates(listing);
    var r := Sort(c);
    assert |r| == |multiset(r)| == |multiset(c)| == |c|;
    assert forall n :: n in r <==> n in multiset(c);
    r
  }

  /** Each node folder of the listing appears exactly once in the collected list. */
  lemma CollectDistinct(listing: seq<Entry>)
    requires DistinctNames(listing)
    ensures Distinct(CollectNodeFolders(listing))
  {
    CandidatesDistinct(listing);
    DistinctPermutation(Candidates(listing), CollectNodeFolders(listing));
  }

  /** The collected list is the only sorted arrangement of the node folders. */
  lemma CollectIsTheSortedArrangement(listing: seq<Entry>, s: seq<string>)
    requires Sorted(s) && multiset(s) == multiset(Candidates(listing))
    ensures s == CollectNodeFolders(listing)
  {
    SortedPermutationUnique(s, CollectNodeFolders(listing));
  }
}

=== FILE: references.dfy ===
/**
 * What the renumbering does to the references between node folders. A folder
 * gets a name from its position in the sorted listing, while a `children` entry
 * gets a name from the number written before its '-'. The two agree exactly
 * when that number is the referenced folder's sorted position; nothing in the
 * merge checks this.
 */
module References {
  import opened Results
  import opened Decimal
  import opened Lexicographic
  import opened Json
  import opened NodeFolders
  import opened Remap

  /** In a numbered run with distinct old names, the map entry of old name `sources[k]` is `str(start + k)`. */
  lemma MapsPosition(a: Remapped, sources: seq<string>, start: int, k: nat)
    requires NumberedFrom(a.folders, sources, start) && MapsOldToNew(a) && Distinct(sources)
    requires k < |sources| && sources[k] in a.folderMap
    ensures a.folderMap[sources[k]] == IntToString(start + k)
  {
    var i :| 0 <= i < |a.folders| && a.folders[i].source == sources[k] && a.folderMap[sources[k]] == a.folders[i].name;
    assert a.folders[i].source == sources[i] && a.folders[i].name == IntToString(start + i);
    assert i == k;
  }

  /** The folder map sends the k-th node folder, in sorted order, to `str(start + k)`. */
  lemma FolderMapNumbering(listing: seq<Entry>, docs: IndexDocs, start: int, dest: set<string>, k: nat)
    requires RemapFolderNodeStructure(listing, docs, start, dest).Ok?
    requires DistinctNames(listing)
    requires k < |CollectNodeFolders(listing)|
    ensures var m := RemapFolderNodeStructure(listing, docs, start, dest).value.folderMap;
            CollectNodeFolders(listing)[k] in m && m[CollectNodeFolders(listing)[k]] == IntToString(start + k)
  {
    var folders := CollectNodeFolders(listing);
    var a := RemapFolderNodeStructure(listing, docs, start, dest).value;
    CollectDistinct(listing);
    assert folders[k] in a.folderMap;
    MapsPosition(a, folders, start, k);
  }

  /** The rewritten index document of a folder carries, as `id`, the name the folder map gives that folder. */
  lemma IndexIdMatchesFolderMap(listing: seq<Entry>, docs: IndexDocs, start: int, dest: set<string>, k: nat)
    requires RemapFolderNodeStructure(listing, docs, start, dest).Ok?
    requires DistinctNames(listing)
    requires k < |CollectNodeFolders(listing)|
    ensures var a := RemapFolderNodeStructure(listing, docs, start, dest).value;
            var f := a.folders[k];
            f.index.Some? <==> f.source in docs
    ensures var a := RemapFolderNodeStructure(listing, docs, start, dest).value;
            var f := a.folders[k];
            f.index.Some? ==> f.source in a.folderMap && f.index.value.JObj? && "id" in f.index.value.fields
                              && f.index.value.fields["id"] == JStr(a.folderMap[f.source])
  {
    FolderMapNumbering(listing, docs, start, dest, k);
  }

  /** A child reference lands on the k-th renumbered folder exactly when the number before its '-' is k. */
  lemma ChildResolvesIff(child: string, start: int, k: nat)
    ensures ChildTarget(child, start) == Some(IntToString(start + k)) <==> PrefixValue(child) == Some(k)
  {
    match PrefixValue(child)
    case None =>
    case Some(n) =>
      assert ChildTarget(child, start) == Some(IntToString(start + n));
      IntToStringInjective(start + n, start + k);
  }

  /**
   * After a successful remap, a child reference resolves to the new name of old
   * folder k exactly when the number before its '-' is k: the folder's sorted
   * position, not the number in the folder's own name.
   */
  lemma ChildFollowsFolderMap(listing: seq<Entry>, docs: IndexDocs, start: int, dest: set<string>, child: string, k: nat)
    requires RemapFolderNodeStructure(listing, docs, start, dest).Ok?
    requires DistinctNames(listing)
    requires k < |CollectNodeFolders(listing)|
    ensures var m := RemapFolderNodeStructure(listing, docs, start, dest).value.folderMap;
            CollectNodeFolders(listing)[k] in m
            && (ChildTarget(child, start) == Some(m[CollectNodeFolders(listing)[k]]) <==> PrefixValue(child) == Some(k))
  {
    FolderMapNumbering(listing, docs, start, dest, k);
    ChildResolvesIff(child, start, k);
  }

  /** The entries of a document's `children` array, or none when it has no such array. */
  function ChildrenOf(doc: Json): seq<Json> {
    if doc.JObj? && "children" in doc.fields && doc.fields["children"].JArr? then doc.fields["children"].items else []
  }

  /**
   * The child references the remap writes are the ChildTarget of the old ones:
   * entry j of the k-th copied folder's rewritten `children` array is the new
   * name its old entry j resolves to.
   */
  lemma WrittenChildResolves(listing: seq<Entry>, docs: IndexDocs, start: int, dest: set<string>, k: nat, j: nat)
    requires RemapFolderNodeStructure(listing, docs, start, dest).Ok?
    requires k < |CollectNodeFolders(listing)|
    requires CollectNodeFolders(listing)[k] in docs
    requires j < |ChildrenOf(docs[CollectNodeFolders(listing)[k]])|
    ensures var before := ChildrenOf(docs[CollectNodeFolders(listing)[k]])[j];
            var f := RemapFolderNodeStructure(listing, docs, start, dest).value.folders[k];
            && before.JStr? && ChildTarget(before.s, start).Some?
            && f.index.Some? && j < |ChildrenOf(f.index.value)|
            && ChildrenOf(f.index.value)[j] == JStr(ChildTarget(before.s, start).value)
  {
    var src := CollectNodeFolders(listing)[k];
    var f := RemapFolderNodeStructure(listing, docs, start, dest).value.folders[k];
    assert Copied(f, src, docs, IntToString(start + k), start);
    CopiedChildResolves(f, src, docs, IntToString(start + k), start, j);
  }

  /** In one copied folder, entry j of the rewritten `children` array is the new name old entry j resolves to. */
  lemma CopiedChildResolves(f: Folder, src: string, docs: IndexDocs, name: string, start: int, j: nat)
    requires Copied(f, src, docs, name, start)
    requires src in docs && j < |ChildrenOf(docs[src])|
    ensures var before := ChildrenOf(docs[src])[j];
            && before.JStr? && ChildTarget(before.s, start).Some?
            && f.index.Some? && j < |ChildrenOf(f.index.value)|
            && ChildrenOf(f.index.value)[j] == JStr(ChildTarget(before.s, start).value)
  {
    var before := docs[src].fields["children"];
    assert ChildrenRewritten(before, f.index.value.fields["children"], start);
    assert Visited(before) == ChildrenOf(docs[src]);
    RewrittenChildIsTarget(ChildrenOf(docs[src])[j].s, start);
  }

  /** `int()` drops leading zeros: a child written "0" followed by a valid reference resolves as that reference does. */
  lemma ChildLeadingZeroDropped(child: string, start: int)
    requires PrefixValue(child).Some?
    ensures PrefixValue("0" + child) == PrefixValue(child)
    ensures ChildTarget("0" + child, start) == ChildTarget(child, start)
  {
    var p := PrefixBeforeDash(child);
    assert ("0" + child)[1..] == child;
    assert PrefixBeforeDash("0" + child) == "0" + p;
    LeadingZeroIgnored(p);
  }

  /** The old folder names already count 0, 1, 2, ... in sorted order. */
  ghost predicate NumberedInOrder(folders: seq<string>) {
    forall k :: 0 <= k < |folders| ==> PrefixValue(folders[k]) == Some(k)
  }

  /**
   * When the old names already count 0, 1, 2, ... in sorted order, a child that
   * names an old folder's number is rewritten to that folder's new name, so the
   * node tree survives the renumbering.
   */
  lemma ReferencesKeptWhenInOrder(listing: seq<Entry>, docs: IndexDocs, start: int, dest: set<string>, child: string, k: nat)
    requires RemapFolderNodeStructure(listing, docs, start, dest).Ok?
    requires DistinctNames(listing)
    requires NumberedInOrder(CollectNodeFolders(listing))
    requires k < |CollectNodeFolders(listing)|
    requires PrefixValue(child) == PrefixValue(CollectNodeFolders(listing)[k])
    ensures var m := RemapFolderNodeStructure(listing, docs, start, dest).value.folderMap;
            CollectNodeFolders(listing)[k] in m && ChildTarget(child, start) == Some(m[CollectNodeFolders(listing)[k]])
  {
    ChildFollowsFolderMap(listing, docs, start, dest, child, k);
  }

  /** Four node folders named "0", "1", "2" and "10", with no index documents. */
  const TenFolders: seq<Entry> := [Entry("0", true), Entry("1", true), Entry("2", true), Entry("10", true)]

  /** Sorting puts "10" before "2". */
  lemma TenFoldersSorted(listing: seq<Entry>)
    requires listing == TenFolders
    ensures CollectNodeFolders(listing) == ["0", "1", "10", "2"]
  {
    TenFoldersCandidates(listing);
    var c := Candidates(listing);
    var s := [c[0], c[1], c[3], c[2]];
    SwapLastTwo(c);
    TenFoldersOrder(s);
    CollectIsTheSortedArrangement(listing, s);
  }

  /** Swapping the last two of four elements keeps the multiset. */
  lemma SwapLastTwo(c: seq<string>)
    requires |c| == 4
    ensures multiset(c) == multiset([c[0], c[1], c[3], c[2]])
  {
    assert c == [c[0], c[1]] + [c[2], c[3]];
    assert [c[0], c[1], c[3], c[2]] == [c[0], c[1]] + [c[3], c[2]];
  }

  /** In listing order, all four entries are node folders. */
  lemma TenFoldersCandidates(listing: seq<Entry>)
    requires listing == TenFolders
    ensures Candidates(listing) == ["0", "1", "2", "10"]
  {
    assert Candidates(listing[3..]) == ["10"];
    assert Candidates(listing[2..]) == ["2", "10"] by {
      assert listing[2..][1..] == listing[3..];
    }
    assert Candidates(listing[1..]) == ["1", "2", "10"] by {
      assert listing[1..][1..] == listing[2..];
    }
  }

  /** "0", "1", "10", "2" is ascending in Python's string order. */
  lemma TenFoldersOrder(s: seq<string>)
    requires s == ["0", "1", "10", "2"]
    ensures Sorted(s)
  {
  }

  /** The four folders copy into an empty destination without error. */
  lemma TenFoldersCopy(listing: seq<Entry>)
    requires listing == TenFolders
    ensures RemapFolderNodeStructure(listing, map[], 0, {}).Ok?
  {
    var folders := CollectNodeFolders(listing);
    forall i | 0 <= i < |folders|
      ensures !FolderFails(folders, map[], 0, {}, i)
    {
    }
  }

  lemma SmallNames()
    ensures IntToString(2) == "2" && IntToString(3) == "3"
  {
    assert NatToString(2) == [DigitChar(2)];
    assert NatToString(3) == [DigitChar(3)];
  }

  /** A child written "2" is rewritten, from offset 0, to "2". */
  lemma ChildTwo()
    ensures ChildTarget("2", 0) == Some("2")
  {
    assert PrefixBeforeDash("2") == "2";
    assert DigitsValue("2") == 2;
    SmallNames();
  }

  /**
   * Outside that case the tree breaks: with folders "0", "1", "2" and "10" the
   * sorted order is "0", "1", "10", "2", so old folder "10" becomes "2" and old
   * folder "2" becomes "3", while a child written "2" is rewritten to "2" and
   * now points at the old folder "10". WrittenChildResolves carries that
   * target into any index document that lists "2" among its children.
   *
   * The listing is a parameter fixed by the precondition rather than the
   * constant itself, so the verifier treats it as one value instead of
   * unfolding the sorting and the copy on the literal.
   */
  lemma MisdirectedChild(listing: seq<Entry>)
    requires listing == TenFolders
    ensures var r := RemapFolderNodeStructure(listing, map[], 0, {});
            && r.Ok?
            && "2" in r.value.folderMap && r.value.folderMap["2"] == "3"
            && "10" in r.value.folderMap && r.value.folderMap["10"] == "2"
            && ChildTarget("2", 0) == Some("2")
  {
    TenFoldersSorted(listing);
    TenFoldersCopy(listing);
    var a := RemapFolderNodeStructure(listing, map[], 0, {}).value;
    assert "2" in a.folderMap && "10" in a.folderMap;
    MisdirectedIn(a);
    ChildTwo();
  }

  /** Any run renumbered from 0 over old names "0", "1", "10", "2" maps them this way. */
  lemma MisdirectedIn(a: Remapped)
    requires NumberedFrom(a.folders, ["0", "1", "10", "2"], 0) && MapsOldToNew(a)
    requires "2" in a.folderMap && "10" in a.folderMap
    ensures a.folderMap["2"] == "3" && a.folderMap["10"] == "2"
  {
    var sources := ["0", "1", "10", "2"];
    assert Distinct(sources);
    SmallNames();
    MapsPosition(a, sources, 0, 2);
    MapsPosition(a, sources, 0, 3);
  }
}

=== FILE: remap.dfy ===
/**
 * `remap_folder_node_structure`: give the k-th node folder (in sorted order) the
 * name `str(start_id + k)`, copy it under that name into the destination
 * directory, and rewrite its node index document: `id` becomes the new name and
 * every `children` entry becomes `str(start_id + int(prefix))`, where `prefix`
 * is the entry's text before its first '-'.
 */
module Remap {
  import opened Results
  import opened Errors
  import opened Decimal
  import opened Lexicographic
  import opened Json
  import opened NodeFolders

  /* ---------------------------------------------------------------- children */

  /** `s.split('-')[0]`: the text before the first '-', or all of s when it has none. */
  function PrefixBeforeDash(s: string): (p: string)
    ensures p <= s
    ensures '-' !in p
    ensures |p| < |s| ==> s[|p|] == '-'
  {
    if |s| == 0 || s[0] == '-' then "" else [s[0]] + PrefixBeforeDash(s[1..])
  }

  /** `int(s.split('-')[0])`, None where `int()` raises ValueError. */
  function PrefixValue(s: string): Option<nat> {
    ParseDecimal(PrefixBeforeDash(s))
  }

  /** The new name one child reference is rewritten to, None where `int()` raises. */
  function ChildTarget(child: string, start: int): Option<string> {
    match PrefixValue(child)
    case None => None
    case Some(n) => Some(IntToString(start + n))
  }

  /** A child the comprehension rewrites without raising: a string whose prefix parses. */
  predicate ChildOk(item: Json) {
    item.JStr? && PrefixValue(item.s).Some?
  }

  /** What the comprehension turns a ChildOk child into. */
  function RewrittenChild(item: Json, start: int): Json
    requires ChildOk(item)
  {
    JStr(IntToString(start + PrefixValue(item.s).value))
  }

  /** The comprehension's rewrite of a string child is exactly its target, and it raises exactly where there is none. */
  lemma RewrittenChildIsTarget(child: string, start: int)
    ensures ChildOk(JStr(child)) <==> ChildTarget(child, start).Some?
    ensures ChildOk(JStr(child)) ==> RewrittenChild(JStr(child), start) == JStr(ChildTarget(child, start).value)
  {
  }

  /** The exception the comprehension raises on a child that is not ChildOk. */
  function ChildError(item: Json, position: nat): MergeError {
    if item.JStr? then BadChildReference(item.s) else ChildNotAString(position)
  }

  /** What `for child in children` visits: an array's items, or a string's characters as one-character strings. */
  function Visited(children: Json): seq<Json> {
    match children
    case JArr(items) => items
    case JStr(s) => seq(|s|, i requires 0 <= i < |s| => JStr([s[i]]))
    case _ => []
  }

  /** Iterating `children` does not raise by itself. */
  predicate Iterable(children: Json) {
    children.JArr? || children.JStr?
  }

  /** The list comprehension over `children` completes without raising. */
  ghost predicate ChildrenRewritable(children: Json) {
    Iterable(children) && forall i :: 0 <= i < |Visited(children)| ==> ChildOk(Visited(children)[i])
  }

  /** `after` is the rewritten `children`: same length and order, entry i renumbered from entry i's prefix. */
  ghost predicate ChildrenRewritten(before: Json, after: Json, start: int) {
    var v := Visited(before);
    && after.JArr?
    && |after.items| == |v|
    && forall i :: 0 <= i < |v| ==> ChildOk(v[i]) && after.items[i] == RewrittenChild(v[i], start)
  }

  /** The position of the first entry of items[k..] that is not ChildOk, or |items| when there is none. */
  function FirstBad(items: seq<Json>, k: nat): (i: nat)
    requires k <= |items|
    ensures k <= i <= |items|
    ensures forall j :: k <= j < i ==> ChildOk(items[j])
    ensures i < |items| ==> !ChildOk(items[i])
    decreases |items| - k
  {
    if k == |items| || !ChildOk(items[k]) then k else FirstBad(items, k + 1)
  }

  /**
   * What the comprehension over items[k..] promises: it succeeds exactly when
   * every entry is ChildOk, then keeps length and order and turns entry i into
   * its rewrite; otherwise it raises the error of the first bad entry.
   */
  ghost predicate ItemsOutcome(r: Result<seq<Json>, MergeError>, items: seq<Json>, start: int, k: nat)
    requires k <= |items|
  {
    && (r.Ok? <==> forall i :: k <= i < |items| ==> ChildOk(items[i]))
    && (r.Ok? ==> |r.value| == |items| - k)
    && (r.Ok? ==> forall i :: k <= i < |items| ==> ChildOk(items[i]) && r.value[i - k] == RewrittenChild(items[i], start))
    && (r.Err? ==> FirstBad(items, k) < |items| && r.error == ChildError(items[FirstBad(items, k)], FirstBad(items, k)))
  }

  /** The comprehension over items[k..], raising at the first child it cannot rewrite. */
  function RewriteItemsFrom(items: seq<Json>, start: int, k: nat): (r: Result<seq<Json>, MergeError>)
    requires k <= |items|
    ensures ItemsOutcome(r, items, start, k)
    decreases |items| - k
  {
    if k == |items| then Ok([])
    else
      var item := items[k];
      if !ChildOk(item) then Err(ChildError(item, k))
      else
        match RewriteItemsFrom(items, start, k + 1)
        case Err(e) => Err(e)
        case Ok(rest) =>
          ItemsStep(items, start, k, rest);
          Ok([RewrittenChild(item, start)] + rest)
  }

  /** The rewrite of items[k] followed by the rewrite of items[k + 1..] is the rewrite of items[k..]. */
  lemma ItemsStep(items: seq<Json>, start: int, k: nat, rest: seq<Json>)
    requires k < |items| && ChildOk(items[k])
    requires ItemsOutcome(Ok(rest), items, start, k + 1)
    ensures ItemsOutcome(Ok([RewrittenChild(items[k], start)] + rest), items, start, k)
  {
    var r := [RewrittenChild(items[k], start)] + rest;
    forall i | k < i < |items|
      ensures r[i - k] == RewrittenChild(items[i], start)
    {
      assert r[i - k] == rest[i - (k + 1)];
    }
  }

  function RewriteVisited(children: Json, start: int): Result<Json, MergeError> {
    match RewriteItemsFrom(Visited(children), start, 0)
    case Err(e) => Err(e)
    case Ok(items) => Ok(JArr(items))
  }

  /** The exceptions rewriting `children` can raise. */
  predicate IsChildrenError(e: MergeError) {
    e.ChildrenNotIterable? || e.ChildrenIsObject? || e.ChildNotAString? || e.BadChildReference?
  }

  /** The renumbering of a `children` value: every child it iterates over becomes the new name of the number before its first '-'. */
  function RewriteChildren(children: Json, start: int): (r: Result<Json, MergeError>)
    ensures r.Ok? <==> ChildrenRewritable(children)
    ensures r.Ok? ==> ChildrenRewritten(children, r.value, start)
    ensures children.JObj? ==> r == Err(ChildrenIsObject)
    ensures !Iterable(children) && !children.JObj? ==> r == Err(ChildrenNotIterable)
    ensures r.Err? ==> IsChildrenError(r.error)
  {
    match children
    case JObj(_) => Err(ChildrenIsObject)
    case JArr(_) => RewriteVisited(children, start)
    case JStr(_) => RewriteVisited(children, start)
    case JNull => Err(ChildrenNotIterable)
    case JBool(_) => Err(ChildrenNotIterable)
    case JNum(_) => Err(ChildrenNotIterable)
  }

  /* ---------------------------------------------------------- index document */

  /** The rewrite of one node index document completes without raising. */
  ghost predicate IndexRewritable(doc: Json) {
    doc.JObj? && ("children" in doc.fields ==> ChildrenRewritable(doc.fields["children"]))
  }

  /** `after` is `before` with `id` set to the new folder name and `children` renumbered; nothing else changes. */
  ghost predicate IndexRewritten(before: Json, after: Json, name: string, start: int) {
    && before.JObj? && after.JObj?
    && after.fields.Keys == before.fields.Keys + {"id"}
    && after.fields["id"] == JStr(name)
    && (forall key :: key in before.fields && key != "id" && key != "children" ==>
          after.fields[key] == before.fields[key])
    && ("children" in before.fields ==>
          ChildrenRewritten(before.fields["children"], after.fields["children"], start))
  }

  /** The index-document update for the folder copied to `name`. */
  function RewriteIndex(folder: string, doc: Json, name: string, start: int): (r: Result<Json, MergeError>)
    ensures r.Ok? <==> IndexRewritable(doc)
    ensures r.Ok? ==> IndexRewritten(doc, r.value, name, start)
    ensures !doc.JObj? ==> r == Err(IndexNotAnObject(folder))
    ensures doc.JObj? && "children" in doc.fields && r.Err? ==> r == RewriteChildren(doc.fields["children"], start)
    ensures r.Err? ==> r.error == IndexNotAnObject(folder) || IsChildrenError(r.error)
  {
    match doc
    case JObj(fields) =>
      var withId := fields["id" := JStr(name)];
      if "children" in fields then
        match RewriteChildren(fields["children"], start)
        case Err(e) => Err(e)
        case Ok(children) => Ok(JObj(withId["children" := children]))
      else Ok(JObj(withId))
    case _ => Err(IndexNotAnObject(folder))
  }

  /* ----------------------------------------------------------------- folders */

  /** A node folder after the copy: its old name, its new name, and its rewritten index document if it has one. */
  datatype Folder = Folder(source: string, name: string, index: Option<Json>)

  /** What `remap_folder_node_structure` produces: the copied folders in order, and the returned `folder_map`. */
  datatype Remapped = Remapped(folders: seq<Folder>, folderMap: map<string, string>)

  /** The index documents of a source directory: folder name to its decoded `3dNodeIndexDocument.json.gz`, for folders that have one. */
  type IndexDocs = map<string, Json>

  /** Copying folder `src` does not raise: it has no index document, or its index document can be rewritten. */
  ghost predicate Copyable(src: string, docs: IndexDocs) {
    src in docs ==> IndexRewritable(docs[src])
  }

  /** `f` is folder `src` copied to `name`, its index document (if any) rewritten. */
  ghost predicate Copied(f: Folder, src: string, docs: IndexDocs, name: string, start: int) {
    && f.source == src
    && f.name == name
    && (f.index.Some? <==> src in docs)
    && (f.index.Some? ==> IndexRewritten(docs[src], f.index.value, name, start))
  }

  /** The body of the loop for one folder, once its destination name is known to be free. */
  function CopyFolder(src: string, docs: IndexDocs, name: string, start: int): (r: Result<Folder, MergeError>)
    ensures r.Ok? <==> Copyable(src, docs)
    ensures r.Ok? ==> Copied(r.value, src, docs, name, start)
    ensures r.Err? ==> src in docs && r == Err(RewriteIndex(src, docs[src], name, start).error)
  {
    if src in docs then
      match RewriteIndex(src, docs[src], name, start)
      case Err(e) => Err(e)
      case Ok(doc) => Ok(Folder(src, name, Some(doc)))
    else Ok(Folder(src, name, None))
  }

  /** The k-th folder cannot be processed: its new name is already taken, or its index document rewrite raises. */
  ghost predicate FolderFails(folders: seq<string>, docs: IndexDocs, start: int, dest: set<string>, k: nat)
    requires k < |folders|
  {
    IntToString(start + k) in dest || !Copyable(folders[k], docs)
  }

  /** The exception raised on the k-th folder when FolderFails. */
  function FolderError(folders: seq<string>, docs: IndexDocs, start: int, dest: set<string>, k: nat): MergeError
    requires k < |folders| && FolderFails(folders, docs, start, dest, k)
  {
    var name := IntToString(start + k);
    if name in dest then FolderExists(name)
    else CopyFolder(folders[k], docs, name, start).error
  }

  /** The k-th folder fails with FolderExists exactly when its new name is already taken. */
  lemma FolderErrorCause(folders: seq<string>, docs: IndexDocs, start: int, dest: set<string>, k: nat)
    requires k < |folders| && FolderFails(folders, docs, start, dest, k)
    ensures FolderError(folders, docs, start, dest, k).FolderExists? <==> IntToString(start + k) in dest
  {
  }

  /** Adding the k-th new name to the destination changes nothing for a later folder i. */
  lemma OwnNameHarmless(folders: seq<string>, docs: IndexDocs, start: int, k: nat, dest: set<string>,
                        dest': set<string>, i: nat)
    requires k < i < |folders|
    requires dest' == dest + {IntToString(start + k)}
    ensures FolderFails(folders, docs, start, dest', i) <==> FolderFails(folders, docs, start, dest, i)
    ensures FolderFails(folders, docs, start, dest, i) ==>
      FolderError(folders, docs, start, dest', i) == FolderError(folders, docs, start, dest, i)
  {
    IntToStringInjective(start + i, start + k);
  }

  /** Failing first at i against the grown destination is failing first at i, from k, against `dest`. */
  lemma FirstFailureAt(folders: seq<string>, docs: IndexDocs, start: int, k: nat, dest: set<string>,
                       dest': set<string>, i: nat)
    requires k < i < |folders| && !FolderFails(folders, docs, start, dest, k)
    requires dest' == dest + {IntToString(start + k)}
    requires FolderFails(folders, docs, start, dest', i)
    requires forall j :: k + 1 <= j < i ==> !FolderFails(folders, docs, start, dest', j)
    ensures FolderFails(folders, docs, start, dest, i)
    ensures forall j :: k <= j < i ==> !FolderFails(folders, docs, start, dest, j)
    ensures FolderError(folders, docs, start, dest', i) == FolderError(folders, docs, start, dest, i)
  {
    OwnNameHarmless(folders, docs, start, k, dest, dest', i);
    forall j | k < j < i
      ensures !FolderFails(folders, docs, start, dest, j)
    {
      OwnNameHarmless(folders, docs, start, k, dest, dest', j);
    }
  }

  /** The first failure after k against the grown destination is the first failure from k against `dest`. */
  lemma FirstFailureLifts(folders: seq<string>, docs: IndexDocs, start: int, k: nat, dest: set<string>,
                          dest': set<string>, e: MergeError)
    requires k < |folders| && !FolderFails(folders, docs, start, dest, k)
    requires dest' == dest + {IntToString(start + k)}
    requires exists i :: k + 1 <= i < |folders| && FolderFails(folders, docs, start, dest', i)
               && (forall j :: k + 1 <= j < i ==> !FolderFails(folders, docs, start, dest', j))
               && e == FolderError(folders, docs, start, dest', i)
    ensures exists i :: k <= i < |folders| && FolderFails(folders, docs, start, dest, i)
              && (forall j :: k <= j < i ==> !FolderFails(folders, docs, start, dest, j))
              && e == FolderError(folders, docs, start, dest, i)
  {
    var i :| k + 1 <= i < |folders| && FolderFails(folders, docs, start, dest', i)
               && (forall j :: k + 1 <= j < i ==> !FolderFails(folders, docs, start, dest', j))
               && e == FolderError(folders, docs, start, dest', i);
    FirstFailureAt(folders, docs, start, k, dest, dest', i);
  }

  /**
   * The loop for folders[k..]: copy folder k to `str(start + k)` (raising if
   * that name already exists under `dest`), rewrite its index document if it
   * has one, then continue with the destination now holding the new folder.
   */
  function RemapFrom(folders: seq<string>, docs: IndexDocs, start: int, k: nat, dest: set<string>)
    : (r: Result<seq<Folder>, MergeError>)
    requires k <= |folders|
    ensures r.Ok? <==> forall i :: k <= i < |folders| ==> !FolderFails(folders, docs, start, dest, i)
    ensures r.Ok? ==> |r.value| == |folders| - k
    ensures r.Ok? ==> forall i :: k <= i < |folders| ==>
              Copied(r.value[i - k], folders[i], docs, IntToString(start + i), start)
    ensures r.Ok? ==> forall i :: 0 <= i < |r.value| ==> r.value[i].name !in dest
    ensures r.Err? ==>
              exists i :: k <= i < |folders| && FolderFails(folders, docs, start, dest, i)
                && (forall j :: k <= j < i ==> !FolderFails(folders, docs, start, dest, j))
                && r.error == FolderError(folders, docs, start, dest, i)
    decreases |folders| - k
  {
    if k == |folders| then Ok([])
    else
      var name := IntToString(start + k);
      if name in dest then
        assert FolderFails(folders, docs, start, dest, k);
        Err(FolderExists(name))
      else
        match CopyFolder(folders[k], docs, name, start)
        case Err(e) =>
          assert FolderFails(folders, docs, start, dest, k);
          Err(e)
        case Ok(f) =>
          RemapStep(folders, docs, start, k, dest, f)
  }

  /**
   * What the loop over folders[k..] promises against destination `dest`: it
   * succeeds exactly when no folder fails, then folder k + i is copied to
   * `str(start + k + i)` under a name not already taken; otherwise it raises
   * the error of the first failing folder.
   */
  ghost predicate RemapOutcome(r: Result<seq<Folder>, MergeError>, folders: seq<string>, docs: IndexDocs,
                               start: int, k: nat, dest: set<string>)
    requires k <= |folders|
  {
    && (r.Ok? <==> forall i :: k <= i < |folders| ==> !FolderFails(folders, docs, start, dest, i))
    && (r.Ok? ==> |r.value| == |folders| - k)
    && (r.Ok? ==> forall i :: k <= i < |folders| ==>
          Copied(r.value[i - k], folders[i], docs, IntToString(start + i), start))
    && (r.Ok? ==> forall i :: 0 <= i < |r.value| ==> r.value[i].name !in dest)
    && (r.Err? ==>
          exists i :: k <= i < |folders| && FolderFails(folders, docs, start, dest, i)
            && (forall j :: k <= j < i ==> !FolderFails(folders, docs, start, dest, j))
            && r.error == FolderError(folders, docs, start, dest, i))
  }

  /** Continue after folder k was copied as `f`: the destination now also holds `f.name`. */
  function RemapStep(folders: seq<string>, docs: IndexDocs, start: int, k: nat, dest: set<string>, f: Folder)
    : (r: Result<seq<Folder>, MergeError>)
    requires k < |folders|
    requires !FolderFails(folders, docs, start, dest, k)
    requires Copied(f, folders[k], docs, IntToString(start + k), start)
    ensures RemapOutcome(r, folders, docs, start, k, dest)
    decreases |folders| - k, 0
  {
    var dest' := dest + {IntToString(start + k)};
    match RemapFrom(folders, docs, start, k + 1, dest')
    case Err(e) =>
      StepFails(folders, docs, start, k, dest, dest', e);
      Err(e)
    case Ok(rest) =>
      StepSucceeds(folders, docs, start, k, dest, dest', f, rest);
      Ok([f] + rest)
  }

  /** A failure of the folders after k, against the grown destination, is the loop's failure from k. */
  lemma StepFails(folders: seq<string>, docs: IndexDocs, start: int, k: nat, dest: set<string>,
                  dest': set<string>, e: MergeError)
    requires k < |folders| && !FolderFails(folders, docs, start, dest, k)
    requires dest' == dest + {IntToString(start + k)}
    requires RemapOutcome(Err(e), folders, docs, start, k + 1, dest')
    ensures RemapOutcome(Err(e), folders, docs, start, k, dest)
  {
    FirstFailureLifts(folders, docs, start, k, dest, dest', e);
  }

  /** Folder k copied as `f` followed by the copies of the later folders is the copy of folders[k..]. */
  lemma StepSucceeds(folders: seq<string>, docs: IndexDocs, start: int, k: nat, dest: set<string>,
                     dest': set<string>, f: Folder, rest: seq<Folder>)
    requires k < |folders|
    requires !FolderFails(folders, docs, start, dest, k)
    requires Copied(f, folders[k], docs, IntToString(start + k), start)
    requires dest' == dest + {IntToString(start + k)}
    requires RemapOutcome(Ok(rest), folders, docs, start, k + 1, dest')
    ensures RemapOutcome(Ok([f] + rest), folders, docs, start, k, dest)
  {
    StepNoFailure(folders, docs, start, k, dest, dest');
    StepCopies(folders, docs, start, k, f, rest);
    StepNamesFree(dest, dest', f, rest);
  }

  /** No folder from k on fails once folder k does not and the later ones do not against the grown destination. */
  lemma StepNoFailure(folders: seq<string>, docs: IndexDocs, start: int, k: nat, dest: set<string>, dest': set<string>)
    requires k < |folders| && !FolderFails(folders, docs, start, dest, k)
    requires dest' == dest + {IntToString(start + k)}
    requires forall i :: k + 1 <= i < |folders| ==> !FolderFails(folders, docs, start, dest', i)
    ensures forall i :: k <= i < |folders| ==> !FolderFails(folders, docs, start, dest, i)
  {
    forall i | k < i < |folders|
      ensures !FolderFails(folders, docs, start, dest, i)
    {
      OwnNameHarmless(folders, docs, start, k, dest, dest', i);
    }
  }

  /** Entry i - k of `[f] + rest` is the copy of folder i. */
  lemma StepCopies(folders: seq<string>, docs: IndexDocs, start: int, k: nat, f: Folder, rest: seq<Folder>)
    requires k < |folders| && |rest| == |folders| - (k + 1)
    requires Copied(f, folders[k], docs, IntToString(start + k), start)
    requires forall i :: k + 1 <= i < |folders| ==>
               Copied(rest[i - (k + 1)], folders[i], docs, IntToString(start + i), start)
    ensures forall i :: k <= i < |folders| ==>
              Copied(([f] + rest)[i - k], folders[i], docs, IntToString(start + i), start)
  {
    var r := [f] + rest;
    forall i | k < i < |folders|
      ensures Copied(r[i - k], folders[i], docs, IntToString(start + i), start)
    {
      assert r[i - k] == rest[i - (k + 1)];
    }
  }

  /** The names of `[f] + rest` avoid `dest` when `rest`'s avoid the larger `dest'` and f's is not in `dest`. */
  lemma StepNamesFree(dest: set<string>, dest': set<string>, f: Folder, rest: seq<Folder>)
    requires dest <= dest' && f.name !in dest
    requires forall i :: 0 <= i < |rest| ==> rest[i].name !in dest'
    ensures forall i :: 0 <= i < |[f] + rest| ==> ([f] + rest)[i].name !in dest
  {
    var r := [f] + rest;
    forall i | 0 < i < |r|
      ensures r[i].name !in dest
    {
      assert r[i] == rest[i - 1];
    }
  }

  /** The folder map the loop builds, one entry per copied folder, a later entry for the same old name replacing an earlier one. */
  function FolderMapOf(fs: seq<Folder>): (m: map<string, string>)
    ensures forall i :: 0 <= i < |fs| ==> fs[i].source in m
    ensures forall key :: key in m ==> exists i :: 0 <= i < |fs| && fs[i].source == key && m[key] == fs[i].name
  {
    if |fs| == 0 then map[]
    else
      var last := fs[|fs| - 1];
      var m := FolderMapOf(fs[..|fs| - 1])[last.source := last.name];
      assert forall i :: 0 <= i < |fs| - 1 ==> fs[..|fs| - 1][i] == fs[i];
      m
  }

  /** With distinct old names, the map sends each folder's old name to exactly its new name. */
  lemma {:induction false} FolderMapAt(fs: seq<Folder>, k: nat)
    requires k < |fs|
    requires forall i, j :: 0 <= i < j < |fs| ==> fs[i].source != fs[j].source
    ensures fs[k].source in FolderMapOf(fs) && FolderMapOf(fs)[fs[k].source] == fs[k].name
    decreases |fs|
  {
    if k < |fs| - 1 {
      var init := fs[..|fs| - 1];
      assert init[k] == fs[k];
      FolderMapAt(init, k);
    }
  }

  /** Consecutive numbers give pairwise distinct names. */
  lemma NewNamesDistinct(fs: seq<Folder>, start: int)
    requires forall i :: 0 <= i < |fs| ==> fs[i].name == IntToString(start + i)
    ensures forall i, j :: 0 <= i < |fs| && 0 <= j < |fs| && i != j ==> fs[i].name != fs[j].name
  {
    forall i, j | 0 <= i < |fs| && 0 <= j < |fs| && i != j
      ensures fs[i].name != fs[j].name
    {
      IntToStringInjective(start + i, start + j);
    }
  }

  /** The map's keys are exactly the old names. */
  lemma FolderMapKeys(fs: seq<Folder>, folders: seq<string>)
    requires |fs| == |folders|
    requires forall i :: 0 <= i < |fs| ==> fs[i].source == folders[i]
    ensures forall n :: n in FolderMapOf(fs) <==> n in folders
  {
    var m := FolderMapOf(fs);
    forall n | n in folders
      ensures n in m
    {
      var i :| 0 <= i < |folders| && folders[i] == n;
      assert fs[i].source == n;
    }
  }

  /** When the new names are pairwise distinct, distinct keys map to distinct values. */
  lemma FolderMapInjective(fs: seq<Folder>)
    requires forall i, j :: 0 <= i < |fs| && 0 <= j < |fs| && i != j ==> fs[i].name != fs[j].name
    ensures forall a, b :: a in FolderMapOf(fs) && b in FolderMapOf(fs) && a != b ==>
              FolderMapOf(fs)[a] != FolderMapOf(fs)[b]
  {
    var m := FolderMapOf(fs);
    forall a, b | a in m && b in m && a != b
      ensures m[a] != m[b]
    {
      var i :| 0 <= i < |fs| && fs[i].source == a && m[a] == fs[i].name;
      var j :| 0 <= j < |fs| && fs[j].source == b && m[b] == fs[j].name;
    }
  }

  /** A run of copied folders renumbered consecutively from `start`, in the order of `sources`. */
  ghost predicate NumberedFrom(fs: seq<Folder>, sources: seq<string>, start: int) {
    && |fs| == |sources|
    && forall i :: 0 <= i < |fs| ==> fs[i].source == sources[i] && fs[i].name == IntToString(start + i)
  }

  /** Every entry of the folder map sends a copied folder's old name to its new name. */
  ghost predicate MapsOldToNew(r: Remapped) {
    forall n :: n in r.folderMap ==>
      exists i :: 0 <= i < |r.folders| && r.folders[i].source == n && r.folderMap[n] == r.folders[i].name
  }

  /** `remap_folder_node_structure(source_dir, dest_dir, start_id)`, with `dest` the folder names already under `dest_dir`. */
  function RemapFolderNodeStructure(listing: seq<Entry>, docs: IndexDocs, start: int, dest: set<string>)
    : (r: Result<Remapped, MergeError>)
    ensures r.Ok? <==> forall i :: 0 <= i < |CollectNodeFolders(listing)| ==>
              !FolderFails(CollectNodeFolders(listing), docs, start, dest, i)
    ensures r.Ok? ==> |r.value.folders| == |CollectNodeFolders(listing)|
    ensures r.Ok? ==> forall i :: 0 <= i < |r.value.folders| ==>
              Copied(r.value.folders[i], CollectNodeFolders(listing)[i], docs, IntToString(start + i), start)
    ensures r.Ok? ==> forall i :: 0 <= i < |r.value.folders| ==> r.value.folders[i].name !in dest
    ensures r.Err? ==>
              exists i :: 0 <= i < |CollectNodeFolders(listing)| && FolderFails(CollectNodeFolders(listing), docs, start, dest, i)
                && (forall j :: 0 <= j < i ==> !FolderFails(CollectNodeFolders(listing), docs, start, dest, j))
                && r.error == FolderError(CollectNodeFolders(listing), docs, start, dest, i)
    ensures r.Ok? ==> forall n :: n in r.value.folderMap <==> n in CollectNodeFolders(listing)
    ensures r.Ok? ==> NumberedFrom(r.value.folders, CollectNodeFolders(listing), start)
    ensures r.Ok? ==> MapsOldToNew(r.value)
    ensures r.Ok? ==> forall a, b :: a in r.value.folderMap && b in r.value.folderMap && a != b ==>
              r.value.folderMap[a] != r.value.folderMap[b]
  {
    var folders := CollectNodeFolders(listing);
    match RemapFrom(folders, docs, start, 0, dest)
    case Err(e) => Err(e)
    case Ok(fs) =>
      RemappedShape(fs, folders, docs, start);
      Ok(Remapped(fs, FolderMapOf(fs)))
  }

  /**
   * The copies of all the folders, with the map built from them, have the
   * promised shape. The precondition is written with `fs[i - 0]` because that
   * is, term for term, what RemapFrom promises for k = 0; the lemma turns it
   * into the plain `fs[i]` form.
   */
  lemma RemappedShape(fs: seq<Folder>, folders: seq<string>, docs: IndexDocs, start: int)
    requires |fs| == |folders|
    requires forall i :: 0 <= i < |folders| ==> Copied(fs[i - 0], folders[i], docs, IntToString(start + i), start)
    ensures forall i :: 0 <= i < |fs| ==> Copied(fs[i], folders[i], docs, IntToString(start + i), start)
    ensures NumberedFrom(fs, folders, start)
    ensures forall n :: n in FolderMapOf(fs) <==> n in folders
    ensures MapsOldToNew(Remapped(fs, FolderMapOf(fs)))
    ensures forall a, b :: a in FolderMapOf(fs) && b in FolderMapOf(fs) && a != b ==>
              FolderMapOf(fs)[a] != FolderMapOf(fs)[b]
  {
    forall i | 0 <= i < |fs|
      ensures Copied(fs[i], folders[i], docs, IntToString(start + i), start)
    {
      assert fs[i - 0] == fs[i];
    }
    FolderMapKeys(fs, folders);
    NewNamesDistinct(fs, start);
    FolderMapInjective(fs);
  }

  /**
   * `a` is what renumbering the node folders of `listing` from `start` yields:
   * the k-th folder in sorted order copied to `str(start + k)` with its index
   * document rewritten, and a folder map over exactly those folders.
   */
  ghost predicate Renumbered(a: Remapped, listing: seq<Entry>, docs: IndexDocs, start: int) {
    var c := CollectNodeFolders(listing);
    && NumberedFrom(a.folders, c, start)
    && (forall i :: 0 <= i < |a.folders| ==> Copied(a.folders[i], c[i], docs, IntToString(start + i), start))
    && (forall n :: n in a.folderMap <==> n in c)
    && MapsOldToNew(a)
  }

  /** A successful remap is the renumbering of its listing. */
  lemma RemapRenumbered(listing: seq<Entry>, docs: IndexDocs, start: int, dest: set<string>)
    requires RemapFolderNodeStructure(listing, docs, start, dest).Ok?
    ensures Renumbered(RemapFolderNodeStructure(listing, docs, start, dest).value, listing, docs, start)
  {
  }

  /** When none of the new names is taken, the remap can only fail on an index document, never with FolderExists. */
  lemma NoCollisionWhenFree(listing: seq<Entry>, docs: IndexDocs, start: int, dest: set<string>)
    requires forall j :: start <= j < start + |CollectNodeFolders(listing)| ==> IntToString(j) !in dest
    ensures RemapFolderNodeStructure(listing, docs, start, dest).Err? ==>
              !RemapFolderNodeStructure(listing, docs, start, dest).error.FolderExists?
  {
    var folders := CollectNodeFolders(listing);
    var r := RemapFolderNodeStructure(listing, docs, start, dest);
    if r.Err? {
      var i :| 0 <= i < |folders| && FolderFails(folders, docs, start, dest, i)
        && r.error == FolderError(folders, docs, start, dest, i);
      FolderErrorCause(folders, docs, start, dest, i);
    }
  }
}

=== FILE: results.dfy ===
/** Option and Result: the model's stand-ins for Python's `None` and for a raised exception. */
module Results {

  /** A value that may be absent. */
  datatype Option<+T> = None | Some(value: T)

  /** Either the value a computation returns, or the exception it raises. */
  datatype Result<+T, +E> = Ok(value: T) | Err(error: E)
}

=== FILE: scene_layer.dfy ===
/**
 * `update_3dscene_layer_json`: the merged package's scene-layer descriptor is
 * the first input's, with a fresh `id` and `resource.rootNode` set to "0".
 */
module SceneLayer {
  import opened Results
  import opened Errors
  import opened Json

  /** The root node reference the merged descriptor points at. */
  const RootNode: string := "0"

  /** The update completes without raising: the descriptor is an object whose `resource`, if present, is an object. */
  predicate Updatable(doc: Json) {
    doc.JObj? && ("resource" !in doc.fields || doc.fields["resource"].JObj?)
  }

  /**
   * The descriptor update, with `uuid` the text of the freshly generated
   * `uuid.uuid4()`: set `id`, create `resource` as `{}` when absent, then set
   * `resource.rootNode`.
   */
  function UpdateSceneLayer(doc: Json, uuid: string): (r: Result<Json, MergeError>)
    ensures r.Ok? <==> Updatable(doc)
    ensures !doc.JObj? ==> r == Err(SceneLayerNotAnObject)
    ensures doc.JObj? && !Updatable(doc) ==> r == Err(ResourceNotAnObject)
    ensures r.Ok? ==> r.value.JObj?
    ensures r.Ok? ==> r.value.fields.Keys == doc.fields.Keys + {"id", "resource"}
    ensures r.Ok? ==> r.value.fields["id"] == JStr(uuid)
    ensures r.Ok? ==> forall key :: key in doc.fields && key != "id" && key != "resource" ==>
              r.value.fields[key] == doc.fields[key]
    ensures r.Ok? ==> r.value.fields["resource"].JObj?
    ensures r.Ok? ==> var res := r.value.fields["resource"].fields;
              && "rootNode" in res && res["rootNode"] == JStr(RootNode)
              && ("resource" !in doc.fields ==> res.Keys == {"rootNode"})
              && ("resource" in doc.fields ==>
                    && res.Keys == doc.fields["resource"].fields.Keys + {"rootNode"}
                    && forall key :: key in doc.fields["resource"].fields && key != "rootNode" ==>
                         res[key] == doc.fields["resource"].fields[key])
  {
    match doc
    case JObj(fields) =>
      var withId := fields["id" := JStr(uuid)];
      var resource := if "resource" in withId then withId["resource"] else JObj(map[]);
      if resource.JObj? then
        Ok(JObj(withId["resource" := JObj(resource.fields["rootNode" := JStr(RootNode)])]))
      else Err(ResourceNotAnObject)
    case _ => Err(SceneLayerNotAnObject)
  }

  /** Running the update again with the same identifier changes nothing. */
  lemma UpdateIdempotent(doc: Json, uuid: string)
    requires Updatable(doc)
    ensures Updatable(UpdateSceneLayer(doc, uuid).value)
    ensures UpdateSceneLayer(UpdateSceneLayer(doc, uuid).value, uuid) == UpdateSceneLayer(doc, uuid)
  {
    var once := UpdateSceneLayer(doc, uuid).value;
    var twice := UpdateSceneLayer(once, uuid).value;
    assert twice.fields["resource"].fields == once.fields["resource"].fields;
    assert twice.fields == once.fields;
  }

  /** The result depends on the input descriptor only through the keys the update does not overwrite. */
  lemma UpdateForgetsOldIdentity(doc: Json, uuid: string)
    requires Updatable(doc) && "id" in doc.fields
    ensures UpdateSceneLayer(doc, uuid) == UpdateSceneLayer(JObj(doc.fields - {"id"}), uuid)
  {
    var a := UpdateSceneLayer(doc, uuid).value;
    var b := UpdateSceneLayer(JObj(doc.fields - {"id"}), uuid).value;
    assert a.fields["resource"] == b.fields["resource"];
    assert a.fields == b.fields;
  }
}
